=== FILE: README.md ===
# restful-routes path grammar, in Dafny

A model of the path grammar of `restful-routes`. The library gives a REST
style single-page application one canonical URL shape per resource:

- the global list `/<resource>/`;
- the create page `/<resource>/create/`;
- the item view `/<resource>/<id>/` and the item edit `/<resource>/<id>/edit/`;
- the context list `/<context>/<contextId>/<resource>/`, where a registered
  context mapper picks the context segment and its ID. Without a mapper the
  generator writes `/<ctxResource>/<ctxId>/<resource>`, with no trailing `/`.

The model has three parts:

- **Generators** build these paths. An absent or empty ID becomes the `:id` or
  `:contextID` placeholder.
- **`extractPathInfo`** decomposes a path into a record. The record holds the
  resource name, the item ID, the context resource and context ID, whether the
  path is an item or a list, and the action mode (`view`, `create` or `edit`).
- **`validatePath`** checks a path against a registry. The registry holds the
  known resources, the alternate-ID matchers of each resource, and the context
  mappers of each (resource, context resource) pair.

Modules:

- `Wrappers`: `Option` and `Result`.
- `Strings`: JavaScript's `String.prototype.split` on one character, its
  inverse `join`, and `endsWith`. This includes the JavaScript corner cases:
  `''.split('/')` is `['']`, and a leading or trailing separator gives an empty
  part.
- `Settings`: the registry. The source keeps it as one mutable module-level
  object. Here it is an immutable `Registry` value, and each setter is a
  function from one registry state to the next.
- `Paths`: the generators, `splitPath`, `isItemPathFromBits`,
  `extractPathInfo` and `validatePath`. A thrown error becomes a `Failure`
  tagged with the error kind.
- `RoundTrip`: how generators and decomposition fit together. A generated
  path decodes to the names and IDs it was built from when the names and IDs
  contain no `/` and no `?`, and a view ID is neither `create` nor `edit`. An
  absent or empty ID decodes as its placeholder. A mapped context list decodes
  to the mapper's context and ID when its resource is not named `edit` (it then
  decodes as an edit path). An unmapped one with a non-empty resource name does
  not decode at all.
  Decoding a path and regenerating from the record gives the path back, within
  the stated limits. A context list is regenerated only through a registry
  whose mapper for the pair returns the context and its ID unchanged.
- `Scenarios`: the repository's test cases, stated as lemmas for every UUID
  test that accepts the test UUID.

The UUID test of the regex library is a parameter `isUuid: string -> bool` of
every operation that uses it. An alternate-ID matcher (a `RegExp` in the
source) is a `string -> bool`. It stands for the matcher's `test` method.

## Model

| member | source | states |
|---|---|---|
| Strings.Split | js/paths.js:9-10 | `split` on one character returns at least one part. No part contains the separator, and joining the parts with the separator gives the input back. |
| Strings.SplitJoin | js/paths.js:9-10 | Splitting undoes joining, for parts that do not contain the separator. |
| Strings.SplitFirstEmpty | js/paths.js:12 | `bits.shift() === ''` holds exactly when the text is empty or starts with the separator. |
| Strings.SplitLastEmpty | js/paths.js:12 | The last part is `''` exactly when the text is empty or ends with the separator. |
| Strings.SplitSeveral | js/paths.js:12 | There is a second part for `pop` to remove exactly when the separator occurs. |
| Strings.SplitFirstIsPrefix | js/paths.js:9 | The first part is the text up to the first separator, or all of the text when there is none. |
| Settings.GetAltIdMatchers | js/settings.js:15 | The returned map gives each resource the matchers the registry holds for it. |
| Settings.GetAltIdMatchersForResource | js/settings.js:17-20 | Returns the registered list, or `[]` (never `undefined`) for a resource without matchers. |
| Settings.AddAltIdMatcher | js/settings.js:22-33 | The resource's list becomes the old list plus the argument. That is one appended matcher, or an array concatenated. The list is created when absent, every other resource keeps its list, and the other registry fields are untouched. |
| Settings.SetAltIdMatchers | js/settings.js:35-36 | After replacing the map, every resource reads the refresh's list, or `[]` when it has none. |
| Settings.AddResource | js/settings.js:39-43 | The name becomes defined and no other name's membership changes. Adding a defined name changes nothing. |
| Settings.SetResources | js/settings.js:45 | After the replacement, a name is defined exactly when the refresh defines it. |
| Settings.AddContextMapper | js/settings.js:52-57 | The mapper becomes the one for its (resource, context) pair. The inner map is created when absent, and every other pair keeps its mapper. |
| Settings.SetResourceMappers | js/settings.js:59 | After the replacement, a pair has a mapper exactly when the refresh has one, and it is the refresh's mapper. |
| Settings.ResourcesDefinedByAdds | js/settings.js:39-43 | `isResourceDefined` after a run of `addResource` calls: a name is defined exactly when it was defined before or is one of the names added. |
| Settings.GetContextMapperForResource | js/settings.js:48-50 | The corrected lookup. It returns the mapper for the pair when the resource has mappers and one of them is for the context, and nothing otherwise. The empty registry has none. |
| Settings.GetContextMapperAsWritten | js/settings.js:48-50 | The lookup as written always fails, because it reads the undefined field `contextMapper`. |
| Settings.ContextMapperLookupDiscrepancy | js/settings.js:48-57 | After `addContextMapper`, the lookup as written still fails, while the corrected lookup returns the registered mapper. |
| Paths.GenerateGlobalListPath | js/paths.js:34 | The global list path is the canonical path of the resource name alone. |
| Paths.GenerateItemCreatePath | js/paths.js:60-61 | The create path is the canonical path of the resource name and `create`. |
| Paths.GenerateItemViewPath | js/paths.js:71-72 | The view path is the canonical path of the resource name and the ID, or of `:id` when the ID is absent or empty. |
| Paths.GenerateItemEditPath | js/paths.js:82-83 | The edit path is the canonical path of the view path's segments followed by `edit`. |
| Paths.ContextListPathFrom | js/paths.js:47-51 | With a mapper, the path is the canonical path of the mapped context, the mapped ID (or `:contextID`) and the resource. Without one, it is the canonical path of the context, its ID (or `:contextID`) and the resource, less the trailing `/`. |
| Paths.GenerateContextListPath | js/paths.js:44-52 | When the registry holds a mapper for the (resource, context) pair, the path is the canonical path of the mapped context, the mapped ID (or `:contextID`) and the resource. Otherwise it is the canonical path of the context, the context ID (or `:contextID`) and the resource, less the trailing `/`. |
| Paths.ActionMode.Name | js/paths.js:87-89 | The `ACTION_MODE_*` constants are non-empty path segments. `edit` and `create` name exactly the edit and create modes. |
| Paths.ItemPathCarriesId | js/paths.js:20-22 | `isItemPathFromBits` accepts exactly the segments whose record carries an item ID. The record is then an item of the first segment, with the second segment as its ID. |
| Paths.GenerateContextListPathAsWritten | js/paths.js:44-52 | As written, `generateContextListPath` never produces a path, because its mapper lookup always throws. |
| Paths.BeforeQuery | js/paths.js:9 | The path name is the longest `?`-free prefix of the path. It is either the whole path or is followed by `?`. |
| Paths.SplitPath | js/paths.js:8-17 | Succeeds exactly when the text before `?` begins and ends with `/`, and otherwise fails with a format error for the whole path. On success, the segments contain no `/` and no `?`, and they rebuild the text before `?` canonically. |
| Paths.CanonicalJoin | js/paths.js:10-12 | A canonical path is the join of an empty part, its segments and an empty part: the parts `splitPath` strips. |
| Paths.Classify | js/paths.js:125-153 | The branches of `extractPathInfo`, tried in order, as an if-and-only-if for each shape. An item is what `isItemPathFromBits` accepts. A global list has one segment. A create path has two segments, the second `create`. Everything else is a context list. |
| Paths.ActionModeOf | js/paths.js:119-123 | The mode is edit exactly when the path ends with `/edit/`. It is create exactly when the path ends with `/create/` and not `/edit/`. Otherwise it is view. |
| Paths.ExtractPathInfo | js/paths.js:117-154 | Fails exactly when `splitPath` does, with a format error for the path. Every decoded record is exactly one of item and list. |
| Paths.ExtractPathInfoAsDocumented | js/paths.js:105-107 | The decomposition the documentation describes. It succeeds and fails exactly when the code does. A list record is always in view mode, an item record is the code's record, and the two records differ at most in the action mode. |
| Paths.InfoFromBits | js/paths.js:125-153 | Every branch's record is exactly one of item and list. |
| Paths.ExtractPathInfoFields | js/paths.js:117-154 | Field by field: which fields each shape sets and which segment each field holds. `undefined` fields come from out-of-range segments. The action mode is read from the whole path. |
| Paths.AnyMatches | js/paths.js:184-185 | `.some(m => m.test(id))` holds exactly when some registered matcher accepts the ID. |
| Paths.CheckPathInfo | js/paths.js:177-195 | Succeeds, returning the path, exactly when every check passes. Otherwise it gives the first error in source order: unknown resource, then unknown context resource, then invalid ID. |
| Paths.ValidatePath | js/paths.js:171-196 | Returns the path itself exactly when it decomposes and passes every check. An undecomposable path is a format error, and otherwise the outcome is that of the ordered checks. |
| Paths.UnmatchedItemIdRejected | js/paths.js:182-187 | The checks refuse, as an invalid ID, the record of an item of a known resource whose truthy ID is not UUID-shaped and is matched by none of the resource's alternate-ID matchers. |
| Paths.MatchedItemIdAccepted | js/paths.js:182-185 | The checks pass the record of an item of a known resource when some alternate-ID matcher of that resource accepts its ID, whatever the UUID test says. |
| Paths.ValidatePathIdempotent | js/paths.js:158-165 | The result of a successful validation can be chained: validating it again gives the same result, and it decomposes. |
| Paths.ValidationIgnoresMode | js/paths.js:174-195 | The checks read no action mode, so checking the documented record gives the outcome `validatePath` gives. |
| RoundTrip.SplitPathCanonical | js/paths.js:8-17 | `splitPath` of the canonical path built from `/`- and `?`-free segments returns exactly those segments. |
| RoundTrip.CanonicalEndsWith | js/paths.js:119-121 | A canonical path ends with `/word/` exactly when its last segment is `word`. |
| RoundTrip.LastSegmentNamesMode | js/paths.js:119-123 | A canonical path whose last segment is the name of a mode reports that mode. |
| RoundTrip.CanonicalActionMode | js/paths.js:119-123 | The action mode of a canonical path is named by its last segment. |
| RoundTrip.DecodeCanonical | js/paths.js:117-154 | A canonical path decodes to the record of its segments, in the mode its last segment names. |
| RoundTrip.GlobalListRoundTrip | js/paths.js:34 | The global list path of `r` decodes to a list of `r` with no IDs. The mode is view, except for resources named `edit` or `create`. |
| RoundTrip.CreateRoundTrip | js/paths.js:60-61 | The create path of `r` decodes through the create branch: an item of `r`, with no ID, in create mode. |
| RoundTrip.ViewRoundTrip | js/paths.js:71-72 | The view path decodes to an item of `r`, in view mode. Its ID is the given ID, or `:id` when that is absent or empty. |
| RoundTrip.EditRoundTrip | js/paths.js:82-83 | The edit path decodes to an item of `r` in edit mode, with the given ID or `:id`. |
| RoundTrip.ViewPathWithEditId | js/paths.js:119-120 | A view path whose ID is `edit` decodes to exactly the record of the edit path with that ID, although the two paths differ. |
| RoundTrip.ViewPathWithCreateId | js/paths.js:20-22 | A view path whose ID is `create` is the create path. Decoded, it has no ID. |
| RoundTrip.EditQueryDecodes | js/paths.js:117-154 | A canonical path followed by a query that ends in `/edit/` decodes to the record of its segments, in edit mode. |
| RoundTrip.QueryDecidesActionMode | js/paths.js:118-120 | The segments come from the text before `?`, but the action mode comes from the whole path. A query ending in `/edit/` turns a view path into edit mode. |
| RoundTrip.ListInEditMode | js/paths.js:119-123 | A global list followed by a query that ends in `/edit/` decodes to a list in edit mode. The documented decomposition gives the same list in view mode. |
| RoundTrip.ContextListDecodes | js/paths.js:142-153 | `/ctx/id/r/` decodes to a list of `r` within context `ctx` and ID `id`, whose UUID flag is that of the context ID. |
| RoundTrip.MappedContextRoundTrip | js/paths.js:47-49 | With a mapper, the context list path decodes to a list of `r`. Its context and ID are the mapper's, or `:contextID` when the mapped ID is absent or empty. |
| RoundTrip.UnmappedContextRejected | js/paths.js:51 | Without a mapper, the context list path of a non-empty resource name lacks the trailing `/`, so `extractPathInfo` rejects it. An empty resource name gives a path ending in `/`, which is not covered. |
| RoundTrip.ContextListPathUsesRegistry | js/paths.js:45-51 | The corrected generator follows the registry's mutators. A mapper just added for the pair gives the mapped canonical path. After the mappers are replaced by an empty map, every context list takes the unmapped form, the canonical path less its trailing `/`. |
| RoundTrip.PlaceholderDefaults | js/paths.js:72 | An absent and an empty ID both produce the placeholders `:id` and `:contextID`. |
| RoundTrip.RegenerateFromBits | js/paths.js:125-153 | Regenerating from the record of one to three canonical segments gives their path back. This excludes records with an empty item or context ID, and the two segments `<r>/edit`, which decode like `<r>/edit/edit`. A context list is regenerated only through a registry whose mapper for the pair returns the context and its ID unchanged. |
| RoundTrip.DecodeThenGenerate | js/paths.js:117-154 | Decoding a query-free path of up to three segments, then calling the matching generator on the record, gives the path back. This excludes empty IDs and the path `/<r>/edit/`, which decodes like the edit path `/<r>/edit/edit/`. A context list is regenerated only through a registry whose mapper for the pair returns the context and its ID unchanged. |
| Scenarios.TestRegistry | js/paths.test.js:5-7 | The test registry defines `places` and `persons` and not `foos`. `persons` has the `self` matcher, and `places` has no matchers. |
| Scenarios.UuidItemScenario | js/paths.test.js:43-51 | `/<r>/<uuid>/` decodes to the item of `r` with that ID, in view mode, for any resource name `r`. The tests use `persons` and the unknown `foos`. |
| Scenarios.SelfItemScenario | js/paths.test.js:33-53 | `/<r>/self/` decodes to the item of `r` with ID `self`, whether or not `r` is known. |
| Scenarios.JohnItemScenario | js/paths.test.js:73 | `/persons/john/` decodes to an item with ID `john`. |
| Scenarios.ContextListScenario | js/paths.test.js:63 | `/places/<uuid>/persons/` decodes to the `persons` list within that place. |
| Scenarios.ValidListScenario | js/paths.test.js:59 | `/persons/` validates to itself. |
| Scenarios.ValidCreateScenario | js/paths.test.js:60 | `/persons/create/` validates to itself. |
| Scenarios.ValidItemScenario | js/paths.test.js:61 | `/persons/<uuid>/` validates to itself when the UUID test accepts the UUID. |
| Scenarios.ValidEditScenario | js/paths.test.js:62 | `/persons/<uuid>/edit/` validates to itself. |
| Scenarios.ValidContextListScenario | js/paths.test.js:63 | `/places/<uuid>/persons/` validates to itself. |
| Scenarios.AlternateIdScenario | js/paths.js:182-185 | `/persons/self/` validates through the `self` alternate-ID matcher of `persons`. |
| Scenarios.InvalidIdScenario | js/paths.test.js:72-74 | `/persons/john/` is refused as an invalid ID when the UUID test rejects `john`. |
| Scenarios.UnknownResourceScenario | js/paths.test.js:68-70 | `/foos/` is refused as an unknown resource. |
| Scenarios.MissingLeadingSlash | js/paths.js:12-14 | `persons/` is a format error, for decomposition and validation alike. |

## Left out

- The `window.location.pathname` default argument of `extractPathInfo` and
  `validatePath`: the path is always passed explicitly.
- The UUID regular expression of the external regex library is not part of this
  model. It is the parameter `isUuid`.
- Alternate-ID matchers are `string -> bool`. The `lastIndex` state of a global
  `RegExp` is not modelled.
- Error message texts: each thrown `Error` is a tagged `PathError` carrying
  the values its message interpolates.
- The registry's mutable module state, and the aliasing of refresh objects
  handed to the `set*` functions: the registry is an immutable value.
- `getAltIDMatchers` returns a shallow copy, and `getAltIDMatchersForResource`
  returns a `slice` copy. With immutable values, a copy is the value itself.
- The resources map is the set of its own keys whose value is not
  `undefined`. The values themselves (`true`) are not kept.
- Only own keys of the registry's maps are modelled. The source's maps are
  `{}` literals, so an inherited `Object.prototype` key (`constructor`,
  `toString`, `__proto__`, ...) also has a value there. `isResourceDefined`
  then holds for it, and `validatePath('/constructor/')` succeeds against an
  empty registry. `getAltIDMatchersForResource` and `addAltIDMatcher` throw a
  `TypeError` for such a key, because the inherited value has no `slice` or
  `push`. The model treats these keys like any other unregistered name: the
  resource is unknown and it has no matchers.
- Settings.AddAltIdMatcher: a registered entry that is falsy but not
  `undefined` cannot occur, because registry values are sequences.
- The commented-out `getDefaultListPath`: it is not part of the code.
- The `query` half returned by `splitPath` is unused by its callers and is not
  returned.
- `extractPathInfo` with four or more segments falls through to the context
  list branch and ignores the extra segments. This is what the code does, and
  the model follows the code. RoundTrip.DecodeThenGenerate and
  RoundTrip.RegenerateFromBits therefore cover up to three segments only,
  because a longer path cannot be regenerated from its record.
- The expected objects in js/paths.test.js:24-53 omit `isUUID`, but the code
  returns it. The scenario lemmas state the record the code builds, with the
  `isUuid` field included.
- Paths.GenerateContextListPath uses the corrected mapper lookup (see
  Findings). Paths.GenerateContextListPathAsWritten is the generator as
  written.

## Findings

| source | as written | input that shows it | evidently intended | confidence | as-written member | corrected member |
|---|---|---|---|---|---|---|
| js/settings.js:48-50 | `getContextMapperForResource` reads `settings.contextMapper[resourceName]`, but the field is `contextMappers`. Indexing `undefined` throws a `TypeError` on every call. Its parameter is also spelled `cxtResourceName` while the body reads `ctxResourceName`. | `addContextMapper('persons', 'places', m)` followed by `generateContextListPath('places', 'x', 'persons')`: the lookup throws instead of returning `m`. | Return `contextMappers[resourceName][ctxResourceName]` when both levels exist, else nothing. | high; not executed | Settings.GetContextMapperAsWritten | Settings.GetContextMapperForResource |
| js/paths.js:105-107 | The documentation of `extractPathInfo` says list paths always result in view mode. The code reads the mode from the whole path text (js/paths.js:119-123) for lists too. | `/persons/?q/edit/` decodes to a list of `persons` in edit mode. So do `/edit/` and `/places/x/create/`. | List records in view mode; item records as the code builds them. | medium; not executed | RoundTrip.ListInEditMode | Paths.ExtractPathInfoAsDocumented |

The context-mapper discrepancy is stated by
Settings.ContextMapperLookupDiscrepancy. The
generator as written always fails (Paths.GenerateContextListPathAsWritten).
The corrected lookup is what Paths.GenerateContextListPath uses. Its proved
properties are Settings.AddContextMapper and
RoundTrip.ContextListPathUsesRegistry.

For the action mode of list paths, the rest of the model follows the code,
Paths.ExtractPathInfo, because the generators' round trips are stated
against what the code returns. Validation is the same either way: the
checks never read the mode (Paths.ValidationIgnoresMode).

=== FILE: paths.dfy ===
/** The path grammar: builders for canonical paths, the decomposition of a
    path into a `PathInfo` record, and validation of that record against the
    resource registry. */
module Paths {
  import opened Wrappers
  import opened Strings
  import opened Settings

  /** The intent a path signals through its trailing segment. */
  datatype ActionMode = View | Create | Edit {

    /** The string value of the corresponding `ACTION_MODE_*` constant: a
        non-empty path segment, and the keyword a path ends with to select
        this mode when the mode is create or edit. */
    function Name(): (name: string)
      ensures IsSegment(name) && name != ""
      ensures name == "edit" <==> this == Edit
      ensures name == "create" <==> this == Create
    {
      match this
      case View => "view"
      case Create => "create"
      case Edit => "edit"
    }
  }

  /** The record `extractPathInfo` returns. A field the source leaves out of
      the returned object (or sets from an out-of-range segment) is `None`. */
  datatype PathInfo = PathInfo(
    resourceName: Option<string>,
    pubId: Option<string>,
    isUuid: Option<bool>,
    ctxResourceName: Option<string>,
    ctxPubId: Option<string>,
    isItem: bool,
    isList: bool,
    actionMode: ActionMode)

  /** The errors the grammar throws, by kind. */
  datatype PathError =
    | FormatError(path: string)
    | UnknownResource(name: string, path: string)
    | UnknownContextResource(name: string, path: string)
    | InvalidId(path: string)

  const IdPlaceholder: string := ":id"
  const ContextIdPlaceholder: string := ":contextID"

  /** JavaScript truthiness of a string that may be `undefined`. */
  predicate Truthy(s: Option<string>) {
    s.Some? && s.value != ""
  }

  /** `id || placeholder`: an absent or empty ID yields the placeholder. */
  function OrPlaceholder(id: Option<string>, placeholder: string): string {
    if Truthy(id) then id.value else placeholder
  }

  /** A value as a template literal or a property key renders it: `undefined`
      becomes the string "undefined". */
  function JsString(s: Option<string>): string {
    match s
    case Some(v) => v
    case None => "undefined"
  }

  // Generators

  /** The global list path: the canonical path of the resource name alone. */
  function GenerateGlobalListPath(resourceName: string): (p: string)
    ensures p == CanonicalPath([resourceName])
  {
    Canonical1(resourceName);
    "/" + resourceName + "/"
  }

  /** The create path: the canonical path of the resource name and `create`. */
  function GenerateItemCreatePath(resourceName: string): (p: string)
    ensures p == CanonicalPath([resourceName, "create"])
  {
    Canonical2(resourceName, "create");
    "/" + resourceName + "/create/"
  }

  /** The item view path: the canonical path of the resource name and the ID,
      or `:id` when the ID is absent or empty. */
  function GenerateItemViewPath(resourceName: string, itemId: Option<string>): (p: string)
    ensures p == CanonicalPath([resourceName, OrPlaceholder(itemId, IdPlaceholder)])
  {
    Canonical2(resourceName, OrPlaceholder(itemId, IdPlaceholder));
    "/" + resourceName + "/" + OrPlaceholder(itemId, IdPlaceholder) + "/"
  }

  /** The item edit path: the view path's segments followed by `edit`. */
  function GenerateItemEditPath(resourceName: string, itemId: Option<string>): (p: string)
    ensures p == CanonicalPath([resourceName, OrPlaceholder(itemId, IdPlaceholder), "edit"])
  {
    Canonical3(resourceName, OrPlaceholder(itemId, IdPlaceholder), "edit");
    "/" + resourceName + "/" + OrPlaceholder(itemId, IdPlaceholder) + "/edit/"
  }

  /** The string building of `generateContextListPath`, given the result of
      the mapper lookup. With a mapper the path is the canonical path of the
      mapped context, the mapped ID (or `:contextID`) and the resource name;
      without one it is the canonical path of the context, its ID (or
      `:contextID`) and the resource name, less the trailing slash. */
  function ContextListPathFrom(mapper: Option<ContextMapper>, ctxResourceName: string,
                               ctxPubId: Option<string>, resourceName: string): (p: string)
    ensures mapper.Some? ==>
              var m := mapper.value(ctxPubId);
              p == CanonicalPath([m.mappedContext, OrPlaceholder(m.mappedId, ContextIdPlaceholder), resourceName])
    ensures mapper.None? ==>
              p + "/" == CanonicalPath([ctxResourceName, OrPlaceholder(ctxPubId, ContextIdPlaceholder), resourceName])
  {
    match mapper
    case Some(f) =>
      var m := f(ctxPubId);
      Canonical3(m.mappedContext, OrPlaceholder(m.mappedId, ContextIdPlaceholder), resourceName);
      "/" + m.mappedContext + "/" + OrPlaceholder(m.mappedId, ContextIdPlaceholder) + "/" + resourceName + "/"
    case None =>
      Canonical3(ctxResourceName, OrPlaceholder(ctxPubId, ContextIdPlaceholder), resourceName);
      "/" + ctxResourceName + "/" + OrPlaceholder(ctxPubId, ContextIdPlaceholder) + "/" + resourceName
  }

  /** `generateContextListPath` with the corrected mapper lookup: the mapped
      form when the registry holds a mapper for the pair, the unmapped form
      otherwise. */
  function GenerateContextListPath(reg: Registry, ctxResourceName: string,
                                   ctxPubId: Option<string>, resourceName: string): (p: string)
    ensures (resourceName in reg.contextMappers && ctxResourceName in reg.contextMappers[resourceName]) ==>
              var m := reg.contextMappers[resourceName][ctxResourceName](ctxPubId);
              p == CanonicalPath([m.mappedContext, OrPlaceholder(m.mappedId, ContextIdPlaceholder), resourceName])
    ensures !(resourceName in reg.contextMappers && ctxResourceName in reg.contextMappers[resourceName]) ==>
              p + "/" == CanonicalPath([ctxResourceName, OrPlaceholder(ctxPubId, ContextIdPlaceholder), resourceName])
  {
    ContextListPathFrom(GetContextMapperForResource(reg, resourceName, ctxResourceName),
                        ctxResourceName, ctxPubId, resourceName)
  }

  /** `generateContextListPath` as written: the mapper lookup always throws,
      so the generator never produces a path. */
  function GenerateContextListPathAsWritten(reg: Registry, ctxResourceName: string,
                                            ctxPubId: Option<string>, resourceName: string): (r: Result<string, LookupError>)
    ensures r.Failure?
  {
    match GetContextMapperAsWritten(reg, resourceName, ctxResourceName)
    case Failure(e) => Failure(e)
    case Success(mapper) => Success(ContextListPathFrom(mapper, ctxResourceName, ctxPubId, resourceName))
  }

  // Decomposition

  /** The part of `path` before its first `?` (the query is discarded). */
  function BeforeQuery(path: string): (name: string)
    ensures |name| <= |path| && name == path[..|name|] && '?' !in name
    ensures |name| == |path| || path[|name|] == '?'
  {
    SplitFirstIsPrefix(path, '?');
    Split(path, '?')[0]
  }

  /** The text begins and ends with `/` (a lone `/` does both). */
  predicate IsCanonical(pathName: string) {
    |pathName| >= 1 && pathName[0] == '/' && pathName[|pathName| - 1] == '/'
  }

  /** A possible path segment: free of `/` and `?`. */
  predicate IsSegment(s: string) {
    '/' !in s && '?' !in s
  }

  /** Every one of `segs` is a possible path segment. */
  predicate AllSegments(segs: seq<string>) {
    forall i :: 0 <= i < |segs| ==> IsSegment(segs[i])
  }

  /** The canonical path with the given segments. */
  function CanonicalPath(segs: seq<string>): string {
    if |segs| == 0 then "/" else "/" + Join(segs, '/') + "/"
  }

  /** `splitPath`: the segments between the leading and trailing `/` of the
      text before the query; a format error unless that text begins and ends
      with `/`. */
  function SplitPath(path: string): (r: Result<seq<string>, PathError>)
    ensures r.Success? <==> IsCanonical(BeforeQuery(path))
    ensures r.Failure? ==> r.error == FormatError(path)
    ensures r.Success? ==> AllSegments(r.value) && CanonicalPath(r.value) == BeforeQuery(path)
  {
    var pathName := BeforeQuery(path);
    var parts := Split(pathName, '/');
    SplitFirstEmpty(pathName, '/');
    SplitSeveral(pathName, '/');
    SplitLastEmpty(pathName, '/');
    if parts[0] != "" || |parts| < 2 || parts[|parts| - 1] != "" then
      Failure(FormatError(path))
    else
      var bits := parts[1..|parts| - 1];
      SplitPathSegments(pathName, parts, bits);
      Success(bits)
  }

  /** The segments cut out of a canonical path rebuild it and contain no `/`
      and no `?`. */
  lemma SplitPathSegments(pathName: string, parts: seq<string>, bits: seq<string>)
    requires '?' !in pathName
    requires parts == Split(pathName, '/')
    requires |parts| >= 2 && parts[0] == "" && parts[|parts| - 1] == ""
    requires bits == parts[1..|parts| - 1]
    ensures AllSegments(bits) && CanonicalPath(bits) == pathName
  {
    FreeOfJoin(parts, '/', '?');
    forall i | 0 <= i < |bits|
      ensures IsSegment(bits[i])
    {
      assert bits[i] == parts[i + 1];
    }
    var rebuilt := [""] + bits + [""];
    forall i | 0 <= i < |parts|
      ensures parts[i] == rebuilt[i]
    {
      if 0 < i < |parts| - 1 {
        assert parts[i] == bits[i - 1];
      }
    }
    assert parts == rebuilt;
    CanonicalJoin(bits);
  }

  /** The parts `Split` sees in a canonical path. */
  lemma CanonicalJoin(segs: seq<string>)
    ensures var parts := [""] + segs + [""];
            |parts| >= 2 && Join(parts, '/') == CanonicalPath(segs)
  {
    var parts := [""] + segs + [""];
    assert parts[1..] == segs + [""];
    if |segs| > 0 {
      JoinSnoc(segs, "", '/');
    }
  }

  /** The canonical path of one segment, written out. */
  lemma Canonical1(a: string)
    ensures CanonicalPath([a]) == "/" + a + "/"
  {
  }

  /** The canonical path of two segments, written out. */
  lemma Canonical2(a: string, b: string)
    ensures CanonicalPath([a, b]) == "/" + a + "/" + b + "/"
  {
    assert [a, b][1..] == [b];
    assert Join([a, b], '/') == a + "/" + b;
  }

  /** The canonical path of three segments, written out. */
  lemma Canonical3(a: string, b: string, c: string)
    ensures CanonicalPath([a, b, c]) == "/" + a + "/" + b + "/" + c + "/"
  {
    assert [a, b, c][1..] == [b, c];
    assert [b, c][1..] == [c];
    var bc := b + "/" + c;
    assert Join([b, c], '/') == bc;
    assert Join([a, b, c], '/') == a + "/" + bc;
    assert "/" + (a + "/" + bc) + "/" == "/" + a + "/" + b + "/" + c + "/";
  }

  /** `isItemPathFromBits`. */
  predicate IsItemPathFromBits(bits: seq<string>) {
    || (|bits| == 2 && bits[1] != "create")
    || (|bits| == 3 && bits[2] == "edit")
  }

  /** The four shapes a decomposed path can take. */
  datatype Shape = ItemShape | GlobalListShape | CreateShape | ContextListShape

  /** The classification of `extractPathInfo`, tried in order: item, global
      list, create, and context list for everything left over. */
  function Classify(bits: seq<string>): (s: Shape)
    ensures s == ItemShape <==> IsItemPathFromBits(bits)
    ensures s == GlobalListShape <==> |bits| == 1
    ensures s == CreateShape <==> |bits| == 2 && bits[1] == "create"
    ensures s == ContextListShape <==> |bits| != 1 && |bits| != 2 && !(|bits| == 3 && bits[2] == "edit")
  {
    if IsItemPathFromBits(bits) then ItemShape
    else if |bits| == 1 then GlobalListShape
    else if |bits| == 2 then CreateShape
    else ContextListShape
  }

  /** The action mode, read from the whole path, query included. */
  function ActionModeOf(path: string): (m: ActionMode)
    ensures m == Edit <==> EndsWith(path, "/edit/")
    ensures m == Create <==> !EndsWith(path, "/edit/") && EndsWith(path, "/create/")
  {
    if EndsWith(path, "/edit/") then Edit
    else if EndsWith(path, "/create/") then Create
    else View
  }

  /** `bits[i]`, which is `undefined` past the end. */
  function At(bits: seq<string>, i: nat): Option<string> {
    if i < |bits| then Some(bits[i]) else None
  }

  /** `extractPathInfo`. `isUuid` is the UUID-shape test. */
  function ExtractPathInfo(path: string, isUuid: string -> bool): (r: Result<PathInfo, PathError>)
    ensures r.Failure? <==> !IsCanonical(BeforeQuery(path))
    ensures r.Failure? ==> r.error == FormatError(path)
    ensures r.Success? ==> r.value.isItem != r.value.isList
  {
    var bits :- SplitPath(path);
    Success(InfoFromBits(bits, ActionModeOf(path), isUuid))
  }

  /** `extractPathInfo` as its documentation describes it: list paths always
      result in view mode, while item records keep the mode the path text
      gives. It differs from the code only in the mode of list records. */
  function ExtractPathInfoAsDocumented(path: string, isUuid: string -> bool): (r: Result<PathInfo, PathError>)
    ensures r.Success? <==> ExtractPathInfo(path, isUuid).Success?
    ensures r.Failure? ==> r == ExtractPathInfo(path, isUuid)
    ensures r.Success? && r.value.isList ==> r.value.actionMode == View
    ensures r.Success? && r.value.isItem ==> r == ExtractPathInfo(path, isUuid)
    ensures r.Success? ==> r.value.(actionMode := ExtractPathInfo(path, isUuid).value.actionMode)
                           == ExtractPathInfo(path, isUuid).value
  {
    var info :- ExtractPathInfo(path, isUuid);
    Success(if info.isList then info.(actionMode := View) else info)
  }

  /** The record for already-split segments, by their shape. */
  function InfoFromBits(bits: seq<string>, actionMode: ActionMode, isUuid: string -> bool): (info: PathInfo)
    ensures info.isItem != info.isList
  {
    match Classify(bits)
    case ItemShape =>
      PathInfo(Some(bits[0]), Some(bits[1]), Some(isUuid(bits[1])), None, None, true, false, actionMode)
    case GlobalListShape =>
      PathInfo(Some(bits[0]), None, None, None, None, false, true, actionMode)
    case CreateShape =>
      PathInfo(Some(bits[0]), None, None, None, None, true, false, actionMode)
    case ContextListShape =>
      var ctxPubId := At(bits, 1);
      PathInfo(At(bits, 2), None, Some(isUuid(JsString(ctxPubId))), At(bits, 0), ctxPubId, false, true, actionMode)
  }

  /** The segments `isItemPathFromBits` accepts are exactly those whose
      record carries an item ID: the resource is the first segment and the ID
      the second, in an item record. */
  lemma ItemPathCarriesId(bits: seq<string>, actionMode: ActionMode, isUuid: string -> bool)
    ensures var info := InfoFromBits(bits, actionMode, isUuid);
            && (IsItemPathFromBits(bits) <==> info.pubId.Some?)
            && (IsItemPathFromBits(bits) ==>
                  info.isItem && info.resourceName == Some(bits[0]) && info.pubId == Some(bits[1]))
  {
  }

  /** What each field of a decoded record holds, by segment count and
      content: the precedence item > global list > create > context list,
      spelled out per field, and the action mode read from the whole path. */
  lemma ExtractPathInfoFields(path: string, isUuid: string -> bool)
    requires ExtractPathInfo(path, isUuid).Success?
    ensures var info := ExtractPathInfo(path, isUuid).value;
      var bits := SplitPath(path).value;
      && (info.isItem <==> |bits| == 2 || (|bits| == 3 && bits[2] == "edit"))
      && (info.actionMode == Edit <==> EndsWith(path, "/edit/"))
      && (info.actionMode == Create <==> !EndsWith(path, "/edit/") && EndsWith(path, "/create/"))
      && (info.resourceName.None? <==> |bits| == 0)
      && (info.pubId.Some? <==> IsItemPathFromBits(bits))
      && (info.ctxResourceName.Some? <==> |bits| >= 3 && !IsItemPathFromBits(bits))
      && (info.ctxPubId.Some? <==> info.ctxResourceName.Some?)
      && (info.isUuid.None? <==> |bits| == 1 || (|bits| == 2 && bits[1] == "create"))
      && (info.pubId.Some? ==>
            info.resourceName == Some(bits[0]) && info.pubId == Some(bits[1]) && info.isUuid == Some(isUuid(bits[1])))
      && (info.ctxResourceName.Some? ==>
            && info.resourceName == Some(bits[2]) && info.ctxResourceName == Some(bits[0])
            && info.ctxPubId == Some(bits[1]) && info.isUuid == Some(isUuid(bits[1])))
      && (|bits| == 1 ==> info.resourceName == Some(bits[0]))
  {
  }

  // Validation

  /** `.some(m => m.test(id))` over a resource's matchers. */
  function AnyMatches(matchers: seq<Matcher>, id: string): (b: bool)
    ensures b <==> exists k :: 0 <= k < |matchers| && matchers[k](id)
  {
    if |matchers| == 0 then false
    else matchers[0](id) || AnyMatches(matchers[1..], id)
  }

  /** An ID passes when it is falsy, UUID-shaped, or matched by one of the
      alternate-ID matchers registered for `resourceKey`. */
  predicate IdAccepted(reg: Registry, resourceKey: string, id: Option<string>, isUuid: string -> bool) {
    var ms := GetAltIdMatchersForResource(reg, resourceKey);
    !Truthy(id) || isUuid(id.value) || exists k :: 0 <= k < |ms| && ms[k](id.value)
  }

  /** Everything `validatePath` demands of a decomposed path. */
  predicate PathAccepted(reg: Registry, info: PathInfo, isUuid: string -> bool) {
    && IsResourceDefined(reg, JsString(info.resourceName))
    && (Truthy(info.ctxResourceName) ==> IsResourceDefined(reg, info.ctxResourceName.value))
    && IdAccepted(reg, JsString(info.resourceName), info.pubId, isUuid)
    && IdAccepted(reg, JsString(info.ctxResourceName), info.ctxPubId, isUuid)
  }

  /** The checks `validatePath` applies to a decomposed path, in order:
      the resource name, the context resource name (when truthy), then the
      item ID and the context ID against the UUID shape and the alternate-ID
      matchers of their own resource. */
  function CheckPathInfo(path: string, info: PathInfo, reg: Registry, isUuid: string -> bool): (r: Result<string, PathError>)
    ensures r.Success? <==> PathAccepted(reg, info, isUuid)
    ensures r.Success? ==> r.value == path
    ensures var name := JsString(info.resourceName);
            && (!IsResourceDefined(reg, name) ==> r == Failure(UnknownResource(name, path)))
            && ((IsResourceDefined(reg, name) && Truthy(info.ctxResourceName)
                   && !IsResourceDefined(reg, info.ctxResourceName.value))
                  ==> r == Failure(UnknownContextResource(info.ctxResourceName.value, path)))
            && ((IsResourceDefined(reg, name)
                   && (Truthy(info.ctxResourceName) ==> IsResourceDefined(reg, info.ctxResourceName.value))
                   && !(IdAccepted(reg, name, info.pubId, isUuid)
                        && IdAccepted(reg, JsString(info.ctxResourceName), info.ctxPubId, isUuid)))
                  ==> r == Failure(InvalidId(path)))
  {
    var name := JsString(info.resourceName);
    if !IsResourceDefined(reg, name) then
      Failure(UnknownResource(name, path))
    else if Truthy(info.ctxResourceName) && !IsResourceDefined(reg, info.ctxResourceName.value) then
      Failure(UnknownContextResource(info.ctxResourceName.value, path))
    else if Truthy(info.pubId)
            && !(isUuid(info.pubId.value)
                 || AnyMatches(GetAltIdMatchersForResource(reg, name), info.pubId.value)) then
      Failure(InvalidId(path))
    else if Truthy(info.ctxPubId)
            && !(isUuid(info.ctxPubId.value)
                 || AnyMatches(GetAltIdMatchersForResource(reg, JsString(info.ctxResourceName)), info.ctxPubId.value)) then
      Failure(InvalidId(path))
    else
      Success(path)
  }

  /** `validatePath`: the path itself when it decomposes and passes every
      check, else the first error found. Validating a path that passed
      returns it again, so validation is idempotent. */
  function ValidatePath(path: string, reg: Registry, isUuid: string -> bool): (r: Result<string, PathError>)
    ensures r.Success? ==> r.value == path
    ensures r.Success? <==>
              ExtractPathInfo(path, isUuid).Success? && PathAccepted(reg, ExtractPathInfo(path, isUuid).value, isUuid)
    ensures ExtractPathInfo(path, isUuid).Failure? ==> r == Failure(FormatError(path))
    ensures ExtractPathInfo(path, isUuid).Success? ==>
              r == CheckPathInfo(path, ExtractPathInfo(path, isUuid).value, reg, isUuid)
  {
    var info :- ExtractPathInfo(path, isUuid);
    CheckPathInfo(path, info, reg, isUuid)
  }

  /** The checks never read the action mode, so validation gives the same
      outcome for the code's decomposition and the documented one. */
  lemma ValidationIgnoresMode(path: string, reg: Registry, isUuid: string -> bool)
    ensures ExtractPathInfoAsDocumented(path, isUuid).Success? ==>
              CheckPathInfo(path, ExtractPathInfoAsDocumented(path, isUuid).value, reg, isUuid)
              == ValidatePath(path, reg, isUuid)
  {
  }

  /** A record for an item of a known resource whose ID is truthy, not
      UUID-shaped and matched by none of the resource's alternate-ID matchers
      is refused as an invalid ID. */
  lemma UnmatchedItemIdRejected(path: string, info: PathInfo, reg: Registry, isUuid: string -> bool)
    requires info.resourceName.Some? && IsResourceDefined(reg, info.resourceName.value)
    requires info.ctxResourceName.None? && Truthy(info.pubId) && !isUuid(info.pubId.value)
    requires forall k :: 0 <= k < |GetAltIdMatchersForResource(reg, info.resourceName.value)| ==>
               !GetAltIdMatchersForResource(reg, info.resourceName.value)[k](info.pubId.value)
    ensures CheckPathInfo(path, info, reg, isUuid) == Failure(InvalidId(path))
  {
  }

  /** Conversely, a record for an item of a known resource whose ID one of the
      resource's alternate-ID matchers accepts passes, whatever the UUID test
      says. */
  lemma MatchedItemIdAccepted(path: string, info: PathInfo, reg: Registry, isUuid: string -> bool, k: nat)
    requires info.resourceName.Some? && IsResourceDefined(reg, info.resourceName.value)
    requires info.ctxResourceName.None? && info.ctxPubId.None? && info.pubId.Some?
    requires k < |GetAltIdMatchersForResource(reg, info.resourceName.value)|
    requires GetAltIdMatchersForResource(reg, info.resourceName.value)[k](info.pubId.value)
    ensures CheckPathInfo(path, info, reg, isUuid) == Success(path)
  {
  }

  /** Validation can be chained: validating the path it returned gives the
      same outcome, and that path decomposes. */
  lemma ValidatePathIdempotent(path: string, reg: Registry, isUuid: string -> bool)
    ensures var r := ValidatePath(path, reg, isUuid);
            r.Success? ==> ValidatePath(r.value, reg, isUuid) == r && ExtractPathInfo(r.value, isUuid).Success?
  {
  }
}

=== FILE: roundtrip.dfy ===
/** How the generators and the decomposer fit together: a generated path
    decodes back to the names and IDs it was built from when they are free of
    `/` and `?`, a view ID is not a mode keyword and a context list's resource
    is not `edit` (placeholders stand in for absent IDs, and a mapped context
    list decodes to the mapper's context),
    and, where the record keeps enough information, decoding a path and
    regenerating from the record gives the path back. */
module RoundTrip {
  import opened Wrappers
  import opened Strings
  import opened Settings
  import opened Paths

  // Canonical paths

  /** Splitting a canonical path recovers its segments. */
  lemma SplitPathCanonical(segs: seq<string>)
    requires AllSegments(segs)
    ensures SplitPath(CanonicalPath(segs)) == Success(segs)
  {
    var p := CanonicalPath(segs);
    var parts := [""] + segs + [""];
    CanonicalJoin(segs);
    assert forall i :: 0 <= i < |parts| ==> parts[i] == "" || parts[i] == segs[i - 1];
    JoinFree(parts, '/', '?');
    SplitNoSep(p, '?');
    assert BeforeQuery(p) == p;
    SplitJoin(parts, '/');
    assert parts[1..|parts| - 1] == segs;
  }

  /** A canonical path whose last segment is the name of a mode reports that
      mode: the record's `actionMode` is the constant the path ends with. */
  lemma LastSegmentNamesMode(segs: seq<string>, m: ActionMode)
    requires |segs| >= 1 && AllSegments(segs) && segs[|segs| - 1] == m.Name()
    ensures ActionModeOf(CanonicalPath(segs)) == m
  {
    CanonicalActionMode(segs);
  }

  /** A path built as `pre + w + "/"`, where `pre` ends with `/` and `w` has no
      `/`, ends with `/word/` exactly when `w` is `word`. */
  lemma EndsWithSegment(pre: string, w: string, word: string)
    requires |pre| >= 1 && pre[|pre| - 1] == '/'
    requires '/' !in w && '/' !in word
    ensures EndsWith(pre + w + "/", "/" + word + "/") <==> w == word
  {
    var s := pre + w + "/";
    var suf := "/" + word + "/";
    var start := |s| - |suf|;
    if w == word {
      assert s[|pre| - 1..] == suf;
    } else if |word| < |w| {
      assert s[start] == w[start - |pre|];
      assert s[start] != suf[0];
    } else if |word| > |w| {
      if |suf| <= |s| {
        assert s[|pre| - 1] == '/';
        assert suf[|pre| - 1 - start] == word[|pre| - 2 - start];
        assert s[|pre| - 1] != suf[|pre| - 1 - start];
      }
    } else {
      assert exists k :: 0 <= k < |w| && w[k] != word[k];
      var k :| 0 <= k < |w| && w[k] != word[k];
      assert s[|pre| + k] == w[k] && suf[1 + k] == word[k];
      assert s[start + 1 + k] != suf[1 + k];
    }
  }

  /** A canonical path ends with `/word/` exactly when its last segment is
      `word`. */
  lemma CanonicalEndsWith(segs: seq<string>, word: string)
    requires |segs| >= 1 && AllSegments(segs) && '/' !in word
    ensures EndsWith(CanonicalPath(segs), "/" + word + "/") <==> segs[|segs| - 1] == word
  {
    var init := segs[..|segs| - 1];
    var last := segs[|segs| - 1];
    CanonicalSnoc(init, last);
    assert init + [last] == segs;
    EndsWithSegment(CanonicalPath(init), last, word);
  }

  /** One more segment extends the canonical path by that segment and `/`. */
  lemma CanonicalSnoc(init: seq<string>, last: string)
    ensures CanonicalPath(init + [last]) == CanonicalPath(init) + last + "/"
  {
    if |init| == 0 {
      assert init + [last] == [last];
    } else {
      var j := Join(init, '/');
      JoinSnoc(init, last, '/');
      assert CanonicalPath(init + [last]) == "/" + (j + "/" + last) + "/";
      assert CanonicalPath(init) == "/" + j + "/";
      assert "/" + (j + "/" + last) + "/" == ("/" + j + "/") + last + "/";
    }
  }

  /** The action mode of a canonical path is decided by its last segment. */
  lemma CanonicalActionMode(segs: seq<string>)
    requires |segs| >= 1 && AllSegments(segs)
    ensures var last := segs[|segs| - 1];
            ActionModeOf(CanonicalPath(segs)) == if last == "edit" then Edit else if last == "create" then Create else View
  {
    var p := CanonicalPath(segs);
    var last := segs[|segs| - 1];
    CanonicalEndsWith(segs, "edit");
    CanonicalEndsWith(segs, "create");
    assert "/" + "edit" + "/" == "/edit/";
    assert "/" + "create" + "/" == "/create/";
    assert EndsWith(p, "/edit/") <==> last == "edit";
    assert EndsWith(p, "/create/") <==> last == "create";
  }

  /** The placeholders are segments, and neither is a mode keyword. */
  lemma PlaceholderSegments()
    ensures IsSegment(IdPlaceholder) && IdPlaceholder != "create" && IdPlaceholder != "edit"
    ensures IsSegment(ContextIdPlaceholder) && ContextIdPlaceholder != "create" && ContextIdPlaceholder != "edit"
  {
  }

  /** A canonical path decodes to the record of its segments, in the mode its
      last segment names. */
  lemma DecodeCanonical(segs: seq<string>, isUuid: string -> bool)
    requires |segs| >= 1 && AllSegments(segs)
    ensures var last := segs[|segs| - 1];
            var mode := if last == "edit" then Edit else if last == "create" then Create else View;
            ExtractPathInfo(CanonicalPath(segs), isUuid) == Success(InfoFromBits(segs, mode, isUuid))
  {
    SplitPathCanonical(segs);
    CanonicalActionMode(segs);
  }

  // Generators against decomposition

  /** The global list path decodes to a list of `r` with no ID. A resource
      named `edit` or `create` makes the path end in `/edit/` or `/create/`,
      and the action mode follows. */
  lemma GlobalListRoundTrip(r: string, isUuid: string -> bool)
    requires IsSegment(r)
    ensures ExtractPathInfo(GenerateGlobalListPath(r), isUuid)
            == Success(PathInfo(Some(r), None, None, None, None, false, true,
                                if r == "edit" then Edit else if r == "create" then Create else View))
  {
    var segs := [r];
    assert AllSegments(segs);
    Canonical1(r);
    DecodeCanonical(segs, isUuid);
    assert Classify(segs) == GlobalListShape;
  }

  /** The create path decodes through the create branch: an item of `r` in
      create mode with no ID. */
  lemma CreateRoundTrip(r: string, isUuid: string -> bool)
    requires IsSegment(r)
    ensures ExtractPathInfo(GenerateItemCreatePath(r), isUuid)
            == Success(PathInfo(Some(r), None, None, None, None, true, false, Create))
  {
    var p := GenerateItemCreatePath(r);
    var segs := [r, "create"];
    assert AllSegments(segs);
    Canonical2(r, "create");
    assert p == CanonicalPath(segs);
    DecodeCanonical(segs, isUuid);
    assert Classify(segs) == CreateShape;
  }

  /** The view path decodes to an item of `r` whose ID is `id`, or `:id` when
      `id` is absent or empty, in view mode. */
  lemma ViewRoundTrip(r: string, id: Option<string>, isUuid: string -> bool)
    requires IsSegment(r)
    requires id.Some? ==> IsSegment(id.value) && id.value != "create" && id.value != "edit"
    ensures var t := OrPlaceholder(id, IdPlaceholder);
            ExtractPathInfo(GenerateItemViewPath(r, id), isUuid)
            == Success(PathInfo(Some(r), Some(t), Some(isUuid(t)), None, None, true, false, View))
  {
    var t := OrPlaceholder(id, IdPlaceholder);
    PlaceholderSegments();
    assert IsSegment(t) && t != "create" && t != "edit";
    var segs := [r, t];
    assert AllSegments(segs);
    Canonical2(r, t);
    assert GenerateItemViewPath(r, id) == CanonicalPath(segs);
    DecodeCanonical(segs, isUuid);
    assert Classify(segs) == ItemShape;
  }

  /** The edit path decodes to an item of `r` whose ID is `id` (or `:id`), in
      edit mode; here an ID spelled `create` is no exception. */
  lemma EditRoundTrip(r: string, id: Option<string>, isUuid: string -> bool)
    requires IsSegment(r)
    requires id.Some? ==> IsSegment(id.value)
    ensures var t := OrPlaceholder(id, IdPlaceholder);
            ExtractPathInfo(GenerateItemEditPath(r, id), isUuid)
            == Success(PathInfo(Some(r), Some(t), Some(isUuid(t)), None, None, true, false, Edit))
  {
    var t := OrPlaceholder(id, IdPlaceholder);
    PlaceholderSegments();
    assert IsSegment(t);
    var segs := [r, t, "edit"];
    assert AllSegments(segs);
    Canonical3(r, t, "edit");
    assert GenerateItemEditPath(r, id) == CanonicalPath(segs);
    DecodeCanonical(segs, isUuid);
    assert Classify(segs) == ItemShape;
  }

  /** Because the action mode is read from the path text, a view path whose ID
      is `edit` reports edit mode, and decodes to exactly the record of the
      edit path for that same ID. */
  lemma ViewPathWithEditId(r: string, isUuid: string -> bool)
    requires IsSegment(r)
    ensures var info := PathInfo(Some(r), Some("edit"), Some(isUuid("edit")), None, None, true, false, Edit);
            && ExtractPathInfo(GenerateItemViewPath(r, Some("edit")), isUuid) == Success(info)
            && ExtractPathInfo(GenerateItemEditPath(r, Some("edit")), isUuid) == Success(info)
            && GenerateItemViewPath(r, Some("edit")) != GenerateItemEditPath(r, Some("edit"))
  {
    ViewOfEditDecodes(r, isUuid);
    EditRoundTrip(r, Some("edit"), isUuid);
    assert |GenerateItemViewPath(r, Some("edit"))| < |GenerateItemEditPath(r, Some("edit"))|;
  }

  /** The view path with ID `edit` decodes as an edit path. */
  lemma ViewOfEditDecodes(r: string, isUuid: string -> bool)
    requires IsSegment(r)
    ensures ExtractPathInfo(GenerateItemViewPath(r, Some("edit")), isUuid)
            == Success(PathInfo(Some(r), Some("edit"), Some(isUuid("edit")), None, None, true, false, Edit))
  {
    var p := GenerateItemViewPath(r, Some("edit"));
    var segs := [r, "edit"];
    assert AllSegments(segs);
    Canonical2(r, "edit");
    assert p == CanonicalPath(segs);
    DecodeCanonical(segs, isUuid);
    assert Classify(segs) == ItemShape;
  }

  /** A view path whose ID is `create` is the create path, and carries no ID
      once decoded. */
  lemma ViewPathWithCreateId(r: string, isUuid: string -> bool)
    requires IsSegment(r)
    ensures ExtractPathInfo(GenerateItemViewPath(r, Some("create")), isUuid)
            == Success(PathInfo(Some(r), None, None, None, None, true, false, Create))
  {
    var head := "/" + r;
    assert OrPlaceholder(Some("create"), IdPlaceholder) == "create";
    assert GenerateItemViewPath(r, Some("create")) == head + "/" + "create" + "/";
    assert "/" + "create" + "/" == "/create/";
    assert head + "/" + "create" + "/" == head + ("/" + "create" + "/");
    assert GenerateItemViewPath(r, Some("create")) == GenerateItemCreatePath(r);
    CreateRoundTrip(r, isUuid);
  }

  /** The action mode is read from the whole path, query included, while the
      segments come only from the text before the `?`. */
  lemma QueryDecidesActionMode(r: string, id: string, query: string, isUuid: string -> bool)
    requires IsSegment(r) && IsSegment(id) && id != "" && id != "create" && id != "edit"
    ensures ExtractPathInfo(GenerateItemViewPath(r, Some(id)) + "?" + query + "/edit/", isUuid)
            == Success(PathInfo(Some(r), Some(id), Some(isUuid(id)), None, None, true, false, Edit))
  {
    var segs := [r, id];
    assert AllSegments(segs);
    Canonical2(r, id);
    assert GenerateItemViewPath(r, Some(id)) == CanonicalPath(segs);
    EditQueryDecodes(segs, query, isUuid);
    assert Classify(segs) == ItemShape;
  }

  /** A canonical path followed by a query that ends in `/edit/` decodes to
      the record of its segments in edit mode. */
  lemma EditQueryDecodes(segs: seq<string>, query: string, isUuid: string -> bool)
    requires AllSegments(segs)
    ensures ExtractPathInfo(CanonicalPath(segs) + "?" + query + "/edit/", isUuid)
            == Success(InfoFromBits(segs, Edit, isUuid))
  {
    var p := CanonicalPath(segs);
    var path := p + "?" + query + "/edit/";
    SplitPathCanonical(segs);
    assert '?' !in p;
    assert path == p + ['?'] + (query + "/edit/");
    BeforeQueryOfQuery(p, query + "/edit/");
    assert SplitPath(path) == SplitPath(p);
    EndsWithAppended(p + "?" + query, "/edit/");
  }

  /** Whatever the documentation of `extractPathInfo` says, a list path is not
      always in view mode: the mode is read from the whole path, so a global
      list followed by a query that ends in `/edit/` decodes to a list in edit
      mode. The documented decomposition gives that list view mode. */
  lemma ListInEditMode(r: string, query: string, isUuid: string -> bool)
    requires IsSegment(r)
    ensures var path := GenerateGlobalListPath(r) + "?" + query + "/edit/";
            && ExtractPathInfo(path, isUuid) == Success(PathInfo(Some(r), None, None, None, None, false, true, Edit))
            && ExtractPathInfoAsDocumented(path, isUuid) == Success(PathInfo(Some(r), None, None, None, None, false, true, View))
  {
    var segs := [r];
    assert AllSegments(segs);
    EditQueryDecodes(segs, query, isUuid);
    assert Classify(segs) == GlobalListShape;
  }

  /** The text before `?` of a `?`-free text followed by a query is that
      text. */
  lemma BeforeQueryOfQuery(p: string, query: string)
    requires '?' !in p
    ensures BeforeQuery(p + ['?'] + query) == p
  {
    SplitPrefix(p, query, '?');
  }

  /** Any text followed by `suffix` ends with `suffix`. */
  lemma EndsWithAppended(x: string, suffix: string)
    ensures EndsWith(x + suffix, suffix)
  {
    assert (x + suffix)[|x|..] == suffix;
  }

  /** A canonical path of three segments whose last is not a mode keyword
      decodes to a list of the last segment within the context named by the
      first two, in view mode. */
  lemma ContextListDecodes(ctx: string, id: string, r: string, isUuid: string -> bool)
    requires IsSegment(ctx) && IsSegment(id) && IsSegment(r) && r != "edit" && r != "create"
    ensures ExtractPathInfo("/" + ctx + "/" + id + "/" + r + "/", isUuid)
            == Success(PathInfo(Some(r), None, Some(isUuid(id)), Some(ctx), Some(id), false, true, View))
  {
    var segs := [ctx, id, r];
    assert AllSegments(segs);
    Canonical3(ctx, id, r);
    DecodeCanonical(segs, isUuid);
    assert Classify(segs) == ContextListShape;
  }

  /** With a mapper, the context list path is canonical and decodes to a list
      of `r` in the mapped context, with the mapped ID (or `:contextID`). */
  lemma MappedContextRoundTrip(mapper: ContextMapper, ctxResourceName: string, ctxPubId: Option<string>,
                               r: string, isUuid: string -> bool)
    requires var m := mapper(ctxPubId);
             && IsSegment(m.mappedContext)
             && (m.mappedId.Some? ==> IsSegment(m.mappedId.value))
    requires IsSegment(r) && r != "edit"
    ensures var m := mapper(ctxPubId);
            var t := OrPlaceholder(m.mappedId, ContextIdPlaceholder);
            ExtractPathInfo(ContextListPathFrom(Some(mapper), ctxResourceName, ctxPubId, r), isUuid)
            == Success(PathInfo(Some(r), None, Some(isUuid(t)), Some(m.mappedContext), Some(t), false, true,
                                if r == "create" then Create else View))
  {
    var m := mapper(ctxPubId);
    var t := OrPlaceholder(m.mappedId, ContextIdPlaceholder);
    var p := ContextListPathFrom(Some(mapper), ctxResourceName, ctxPubId, r);
    PlaceholderSegments();
    assert IsSegment(t);
    assert p == "/" + m.mappedContext + "/" + t + "/" + r + "/";
    if r == "create" {
      var segs := [m.mappedContext, t, r];
      assert AllSegments(segs);
      Canonical3(m.mappedContext, t, r);
      DecodeCanonical(segs, isUuid);
      assert Classify(segs) == ContextListShape;
    } else {
      ContextListDecodes(m.mappedContext, t, r, isUuid);
    }
  }

  /** Without a mapper, the context list path has no trailing slash, so the
      decomposer rejects it; this holds for the `:contextID` placeholder form
      too. */
  lemma UnmappedContextRejected(ctxResourceName: string, ctxPubId: Option<string>, r: string, isUuid: string -> bool)
    requires IsSegment(ctxResourceName) && IsSegment(r) && r != ""
    requires ctxPubId.Some? ==> IsSegment(ctxPubId.value)
    ensures var p := ContextListPathFrom(None, ctxResourceName, ctxPubId, r);
            ExtractPathInfo(p, isUuid) == Failure(FormatError(p))
  {
    var p := ContextListPathFrom(None, ctxResourceName, ctxPubId, r);
    assert '?' !in p;
    SplitNoSep(p, '?');
    assert p[|p| - 1] == r[|r| - 1];
  }

  /** The corrected `generateContextListPath` follows the registry's
      mutators: a mapper just added for the pair gives the mapped canonical
      path, and after the mappers are replaced by an empty map every context
      list takes the unmapped form, less its trailing `/`. */
  lemma ContextListPathUsesRegistry(reg: Registry, ctxResourceName: string, ctxPubId: Option<string>,
                                    r: string, mapper: ContextMapper)
    ensures var m := mapper(ctxPubId);
            GenerateContextListPath(AddContextMapper(reg, r, ctxResourceName, mapper), ctxResourceName, ctxPubId, r)
            == CanonicalPath([m.mappedContext, OrPlaceholder(m.mappedId, ContextIdPlaceholder), r])
    ensures GenerateContextListPath(SetResourceMappers(reg, map[]), ctxResourceName, ctxPubId, r) + "/"
            == CanonicalPath([ctxResourceName, OrPlaceholder(ctxPubId, ContextIdPlaceholder), r])
  {
  }

  /** An absent or empty ID produces the placeholder in every generator. */
  lemma PlaceholderDefaults(r: string, ctxResourceName: string)
    ensures GenerateItemViewPath(r, None) == GenerateItemViewPath(r, Some("")) == "/" + r + "/:id/"
    ensures GenerateItemEditPath(r, None) == GenerateItemEditPath(r, Some("")) == "/" + r + "/:id/edit/"
    ensures ContextListPathFrom(None, ctxResourceName, None, r)
            == ContextListPathFrom(None, ctxResourceName, Some(""), r)
            == "/" + ctxResourceName + "/:contextID/" + r
  {
    ViewPlaceholder(r);
    EditPlaceholder(r);
    ContextPlaceholder(ctxResourceName, r);
  }

  /** `PlaceholderDefaults` for the view path. */
  lemma ViewPlaceholder(r: string)
    ensures GenerateItemViewPath(r, None) == GenerateItemViewPath(r, Some("")) == "/" + r + "/:id/"
  {
    assert OrPlaceholder(None, IdPlaceholder) == OrPlaceholder(Some(""), IdPlaceholder) == ":id";
    var head := "/" + r;
    assert head + "/" + ":id" + "/" == head + "/:id/";
  }

  /** `PlaceholderDefaults` for the edit path. */
  lemma EditPlaceholder(r: string)
    ensures GenerateItemEditPath(r, None) == GenerateItemEditPath(r, Some("")) == "/" + r + "/:id/edit/"
  {
    assert OrPlaceholder(None, IdPlaceholder) == OrPlaceholder(Some(""), IdPlaceholder) == ":id";
    var head := "/" + r;
    assert head + "/" + ":id" + "/edit/" == head + "/:id/edit/";
  }

  /** `PlaceholderDefaults` for the unmapped context list path. */
  lemma ContextPlaceholder(ctxResourceName: string, r: string)
    ensures ContextListPathFrom(None, ctxResourceName, None, r)
            == ContextListPathFrom(None, ctxResourceName, Some(""), r)
            == "/" + ctxResourceName + "/:contextID/" + r
  {
    assert OrPlaceholder(None, ContextIdPlaceholder) == OrPlaceholder(Some(""), ContextIdPlaceholder) == ":contextID";
    var head := "/" + ctxResourceName;
    assert head + "/" + ":contextID" + "/" + r == head + "/:contextID/" + r;
  }

  // Decomposition against generators

  /** The mapper that keeps the context resource name and its ID unchanged. */
  function KeepContext(ctx: string): ContextMapper {
    (id: Option<string>) => MappedContext(ctx, id)
  }

  /** The generator call that produces a path with the information of `info`.
      A context list is rebuilt by `generateContextListPath` in a registry
      whose mapper for the pair keeps the context and its ID; without a
      mapper the generator drops the trailing `/`. */
  function PathFor(info: PathInfo): string
    requires info.resourceName.Some?
  {
    var r := info.resourceName.value;
    if info.isList then
      if info.ctxResourceName.Some? then
        var ctx := info.ctxResourceName.value;
        GenerateContextListPath(AddContextMapper(EmptyRegistry(), r, ctx, KeepContext(ctx)), ctx, info.ctxPubId, r)
      else GenerateGlobalListPath(r)
    else if info.pubId.None? then GenerateItemCreatePath(r)
    else if info.actionMode == Edit then GenerateItemEditPath(r, info.pubId)
    else GenerateItemViewPath(r, info.pubId)
  }

  /** Regenerating from the record of one to three canonical segments gives
      their canonical path back, under the conditions of `DecodeThenGenerate`. */
  lemma RegenerateFromBits(bits: seq<string>, isUuid: string -> bool)
    requires AllSegments(bits) && 1 <= |bits| <= 3
    requires var info := InfoFromBits(bits, ActionModeOf(CanonicalPath(bits)), isUuid);
             info.pubId != Some("") && info.ctxPubId != Some("")
    requires |bits| == 2 ==> bits[1] != "edit"
    ensures PathFor(InfoFromBits(bits, ActionModeOf(CanonicalPath(bits)), isUuid)) == CanonicalPath(bits)
  {
    if |bits| == 1 {
      assert bits == [bits[0]];
      Regenerate1(bits[0], isUuid);
    } else if |bits| == 2 {
      assert bits == [bits[0], bits[1]];
      Regenerate2(bits[0], bits[1], isUuid);
    } else {
      assert bits == [bits[0], bits[1], bits[2]];
      Regenerate3(bits[0], bits[1], bits[2], isUuid);
    }
  }

  /** `RegenerateFromBits` for one segment: the global list. */
  lemma Regenerate1(a: string, isUuid: string -> bool)
    requires IsSegment(a)
    ensures PathFor(InfoFromBits([a], ActionModeOf(CanonicalPath([a])), isUuid)) == CanonicalPath([a])
  {
    Canonical1(a);
  }

  /** `RegenerateFromBits` for two segments: the create path or an item view. */
  lemma Regenerate2(a: string, b: string, isUuid: string -> bool)
    requires IsSegment(a) && IsSegment(b)
    requires b != "" && b != "edit"
    ensures PathFor(InfoFromBits([a, b], ActionModeOf(CanonicalPath([a, b])), isUuid)) == CanonicalPath([a, b])
  {
    var segs := [a, b];
    assert AllSegments(segs);
    Canonical2(a, b);
    CanonicalActionMode(segs);
    var head := "/" + a + "/";
    if b == "create" {
      assert Classify(segs) == CreateShape;
      var info := InfoFromBits(segs, Create, isUuid);
      assert info == PathInfo(Some(a), None, None, None, None, true, false, Create);
      assert PathFor(info) == head + "create/";
      assert head + "create" + "/" == head + "create/";
    } else {
      assert Classify(segs) == ItemShape;
      var info := InfoFromBits(segs, View, isUuid);
      assert info == PathInfo(Some(a), Some(b), Some(isUuid(b)), None, None, true, false, View);
      assert PathFor(info) == GenerateItemViewPath(a, Some(b));
    }
  }

  /** `RegenerateFromBits` for three segments: an item edit or a context list. */
  lemma Regenerate3(a: string, b: string, c: string, isUuid: string -> bool)
    requires IsSegment(a) && IsSegment(b) && IsSegment(c)
    requires b != ""
    ensures PathFor(InfoFromBits([a, b, c], ActionModeOf(CanonicalPath([a, b, c])), isUuid)) == CanonicalPath([a, b, c])
  {
    var segs := [a, b, c];
    assert AllSegments(segs);
    Canonical3(a, b, c);
    CanonicalActionMode(segs);
    var head := "/" + a + "/" + b + "/";
    if c == "edit" {
      assert Classify(segs) == ItemShape;
      var info := InfoFromBits(segs, Edit, isUuid);
      assert info == PathInfo(Some(a), Some(b), Some(isUuid(b)), None, None, true, false, Edit);
      assert PathFor(info) == head + "edit/";
      assert head + "edit" + "/" == head + "edit/";
    } else {
      assert Classify(segs) == ContextListShape;
    }
  }

  /** Decoding a query-free path of at most three segments and regenerating it
      from the record gives the path back, unless an ID is empty (the
      generators substitute a placeholder) or the path is `/<r>/edit/` (it
      decodes like the edit path `/<r>/edit/edit/`). */
  lemma DecodeThenGenerate(path: string, isUuid: string -> bool)
    requires '?' !in path
    requires ExtractPathInfo(path, isUuid).Success?
    requires |SplitPath(path).value| <= 3
    requires var info := ExtractPathInfo(path, isUuid).value;
             && info.resourceName.Some?
             && info.pubId != Some("") && info.ctxPubId != Some("")
    requires var bits := SplitPath(path).value;
             |bits| == 2 ==> bits[1] != "edit"
    ensures PathFor(ExtractPathInfo(path, isUuid).value) == path
  {
    var bits := SplitPath(path).value;
    SplitNoSep(path, '?');
    assert BeforeQuery(path) == path;
    assert CanonicalPath(bits) == path;
    assert ExtractPathInfo(path, isUuid).value == InfoFromBits(bits, ActionModeOf(path), isUuid);
    ExtractPathInfoFields(path, isUuid);
    RegenerateFromBits(bits, isUuid);
  }
}

=== FILE: scenarios.dfy ===
/** The scenarios of the repository's test suite (js/paths.test.js), stated
    for every UUID test that accepts the test UUID and, where it matters,
    rejects `john`. */
module Scenarios {
  import opened Wrappers
  import opened Strings
  import opened Settings
  import opened Paths
  import opened RoundTrip

  const TestUuid: string := "C6B4E077-91F1-4BC3-A857-42EFC7B9D247"

  /** The alternate ID `/^self$/`: exactly the string `self`. */
  function SelfMatcher(): Matcher {
    (s: string) => s == "self"
  }

  /** The registry the tests build: `places` and `persons`, with `self` as an
      alternate ID of `persons`. */
  function TestRegistry(): (reg: Registry)
    ensures IsResourceDefined(reg, "places") && IsResourceDefined(reg, "persons")
    ensures !IsResourceDefined(reg, "foos")
    ensures GetAltIdMatchersForResource(reg, "persons") == [SelfMatcher()]
    ensures GetAltIdMatchersForResource(reg, "places") == []
  {
    var r1 := AddResource(EmptyRegistry(), "places");
    var r2 := AddResource(r1, "persons");
    AddAltIdMatcher(r2, "persons", One(SelfMatcher()))
  }

  /** The test UUID is a non-empty segment and not a mode keyword. */
  lemma TestUuidIsSegment()
    ensures IsSegment(TestUuid) && TestUuid != "" && TestUuid != "create" && TestUuid != "edit"
  {
  }

  /** The item path of a resource with the test UUID decodes to that item in
      view mode, whether or not the resource is known (the tests use `persons`
      and `foos`). */
  lemma UuidItemScenario(r: string, isUuid: string -> bool)
    requires IsSegment(r)
    ensures ExtractPathInfo("/" + r + "/" + TestUuid + "/", isUuid)
            == Success(PathInfo(Some(r), Some(TestUuid), Some(isUuid(TestUuid)), None, None, true, false, View))
  {
    TestUuidIsSegment();
    ViewRoundTrip(r, Some(TestUuid), isUuid);
  }

  /** `self` decodes as an item ID, whether or not the resource is known or
      has `self` as an alternate ID. */
  lemma SelfItemScenario(r: string, isUuid: string -> bool)
    requires IsSegment(r)
    ensures ExtractPathInfo("/" + r + "/self/", isUuid)
            == Success(PathInfo(Some(r), Some("self"), Some(isUuid("self")), None, None, true, false, View))
  {
    assert GenerateItemViewPath(r, Some("self")) == "/" + r + "/self/";
    ViewRoundTrip(r, Some("self"), isUuid);
  }

  /** `john` decodes as an ID like any other segment. */
  lemma JohnItemScenario(isUuid: string -> bool)
    ensures ExtractPathInfo("/persons/john/", isUuid)
            == Success(PathInfo(Some("persons"), Some("john"), Some(isUuid("john")), None, None, true, false, View))
  {
    assert GenerateItemViewPath("persons", Some("john")) == "/persons/john/";
    ViewRoundTrip("persons", Some("john"), isUuid);
  }

  /** The context list `/places/<uuid>/persons/` decodes to `persons` within
      the place with the test UUID. */
  lemma ContextListScenario(isUuid: string -> bool)
    ensures ExtractPathInfo("/places/" + TestUuid + "/persons/", isUuid)
            == Success(PathInfo(Some("persons"), None, Some(isUuid(TestUuid)), Some("places"), Some(TestUuid),
                                false, true, View))
  {
    TestUuidIsSegment();
    var head := "/places/" + TestUuid;
    assert "/" + "places" + "/" == "/places/";
    assert "/" + "places" + "/" + TestUuid + "/" + "persons" + "/" == head + "/" + "persons" + "/";
    assert head + "/" + "persons" + "/" == head + "/persons/";
    ContextListDecodes("places", TestUuid, "persons", isUuid);
  }

  /** `/persons/` passes validation unchanged. */
  lemma ValidListScenario(isUuid: string -> bool)
    ensures ValidatePath("/persons/", TestRegistry(), isUuid) == Success("/persons/")
  {
    assert GenerateGlobalListPath("persons") == "/persons/";
    GlobalListRoundTrip("persons", isUuid);
    TestRegistryPasses("/persons/", PathInfo(Some("persons"), None, None, None, None, false, true, View), isUuid);
  }

  /** `/persons/create/` passes validation unchanged. */
  lemma ValidCreateScenario(isUuid: string -> bool)
    ensures ValidatePath("/persons/create/", TestRegistry(), isUuid) == Success("/persons/create/")
  {
    assert GenerateItemCreatePath("persons") == "/persons/create/";
    CreateRoundTrip("persons", isUuid);
    TestRegistryPasses("/persons/create/", PathInfo(Some("persons"), None, None, None, None, true, false, Create), isUuid);
  }

  /** The view path of a `persons` item with the test UUID passes validation
      unchanged... */
  lemma ValidItemScenario(isUuid: string -> bool)
    requires isUuid(TestUuid)
    ensures ValidatePath("/persons/" + TestUuid + "/", TestRegistry(), isUuid)
            == Success("/persons/" + TestUuid + "/")
  {
    TestUuidIsSegment();
    PersonsItemValid(TestUuid, isUuid);
  }

  /** The view path of a `persons` item with any UUID-shaped ID validates to itself. */
  lemma PersonsItemValid(id: string, isUuid: string -> bool)
    requires IsSegment(id) && id != "" && id != "create" && id != "edit" && isUuid(id)
    ensures ValidatePath("/persons/" + id + "/", TestRegistry(), isUuid) == Success("/persons/" + id + "/")
  {
    var p := "/persons/" + id + "/";
    assert GenerateItemViewPath("persons", Some(id)) == p;
    ViewRoundTrip("persons", Some(id), isUuid);
    TestRegistryPasses(p, PathInfo(Some("persons"), Some(id), Some(true), None, None, true, false, View), isUuid);
  }

  /** ...and so does its edit path. */
  lemma ValidEditScenario(isUuid: string -> bool)
    requires isUuid(TestUuid)
    ensures ValidatePath("/persons/" + TestUuid + "/edit/", TestRegistry(), isUuid)
            == Success("/persons/" + TestUuid + "/edit/")
  {
    var p := "/persons/" + TestUuid + "/edit/";
    TestUuidIsSegment();
    assert GenerateItemEditPath("persons", Some(TestUuid)) == p;
    EditRoundTrip("persons", Some(TestUuid), isUuid);
    TestRegistryPasses(p, PathInfo(Some("persons"), Some(TestUuid), Some(true), None, None, true, false, Edit), isUuid);
  }

  /** The persons of a place with the test UUID pass validation unchanged. */
  lemma ValidContextListScenario(isUuid: string -> bool)
    requires isUuid(TestUuid)
    ensures ValidatePath("/places/" + TestUuid + "/persons/", TestRegistry(), isUuid)
            == Success("/places/" + TestUuid + "/persons/")
  {
    ContextListScenario(isUuid);
    TestRegistryPasses("/places/" + TestUuid + "/persons/",
                       PathInfo(Some("persons"), None, Some(true), Some("places"), Some(TestUuid), false, true, View), isUuid);
  }

  /** A record naming only `persons`, within `places` or no context, whose IDs
      are UUID-shaped passes the checks against the test registry. */
  lemma TestRegistryPasses(path: string, info: PathInfo, isUuid: string -> bool)
    requires info.resourceName == Some("persons")
    requires info.ctxResourceName == None || info.ctxResourceName == Some("places")
    requires info.pubId.Some? ==> isUuid(info.pubId.value)
    requires info.ctxPubId.Some? ==> isUuid(info.ctxPubId.value)
    ensures CheckPathInfo(path, info, TestRegistry(), isUuid) == Success(path)
  {
  }

  /** The alternate ID `self` is accepted for `persons`... */
  lemma AlternateIdScenario(isUuid: string -> bool)
    ensures ValidatePath("/persons/self/", TestRegistry(), isUuid) == Success("/persons/self/")
  {
    assert GenerateItemViewPath("persons", Some("self")) == "/persons/self/";
    ViewRoundTrip("persons", Some("self"), isUuid);
    SelfPassesChecks(isUuid);
  }

  /** The record of `/persons/self/` passes the checks through the `self` matcher. */
  lemma SelfPassesChecks(isUuid: string -> bool)
    ensures var info := PathInfo(Some("persons"), Some("self"), Some(isUuid("self")), None, None, true, false, View);
            CheckPathInfo("/persons/self/", info, TestRegistry(), isUuid) == Success("/persons/self/")
  {
    var ms := GetAltIdMatchersForResource(TestRegistry(), "persons");
    assert ms == [SelfMatcher()];
    assert ms[0]("self");
    var info := PathInfo(Some("persons"), Some("self"), Some(isUuid("self")), None, None, true, false, View);
    MatchedItemIdAccepted("/persons/self/", info, TestRegistry(), isUuid, 0);
  }

  /** ...while `john`, which is neither UUID-shaped nor `self`, is refused. */
  lemma InvalidIdScenario(isUuid: string -> bool)
    requires !isUuid("john")
    ensures ValidatePath("/persons/john/", TestRegistry(), isUuid) == Failure(InvalidId("/persons/john/"))
  {
    JohnItemScenario(isUuid);
    JohnFailsChecks(isUuid);
  }

  /** The record of `/persons/john/` fails the ID check when `john` is not UUID-shaped. */
  lemma JohnFailsChecks(isUuid: string -> bool)
    requires !isUuid("john")
    ensures var info := PathInfo(Some("persons"), Some("john"), Some(isUuid("john")), None, None, true, false, View);
            CheckPathInfo("/persons/john/", info, TestRegistry(), isUuid) == Failure(InvalidId("/persons/john/"))
  {
    var ms := GetAltIdMatchersForResource(TestRegistry(), "persons");
    assert ms == [SelfMatcher()];
    assert !ms[0]("john");
    var info := PathInfo(Some("persons"), Some("john"), Some(isUuid("john")), None, None, true, false, View);
    UnmatchedItemIdRejected("/persons/john/", info, TestRegistry(), isUuid);
  }

  /** An unregistered resource is refused. */
  lemma UnknownResourceScenario(isUuid: string -> bool)
    ensures ValidatePath("/foos/", TestRegistry(), isUuid) == Failure(UnknownResource("foos", "/foos/"))
  {
    assert GenerateGlobalListPath("foos") == "/foos/";
    GlobalListRoundTrip("foos", isUuid);
    FoosFailsChecks("/foos/", PathInfo(Some("foos"), None, None, None, None, false, true, View), isUuid);
  }

  /** Any record naming `foos` fails the resource check against the test registry. */
  lemma FoosFailsChecks(path: string, info: PathInfo, isUuid: string -> bool)
    requires info.resourceName == Some("foos")
    ensures CheckPathInfo(path, info, TestRegistry(), isUuid) == Failure(UnknownResource("foos", path))
  {
  }

  /** A path without its leading slash is a format error, for decomposition
      and validation alike. */
  lemma MissingLeadingSlash(reg: Registry, isUuid: string -> bool)
    ensures ExtractPathInfo("persons/", isUuid) == Failure(FormatError("persons/"))
    ensures ValidatePath("persons/", reg, isUuid) == Failure(FormatError("persons/"))
  {
    SplitNoSep("persons/", '?');
    assert BeforeQuery("persons/") == "persons/";
  }
}

=== FILE: settings.dfy ===
/** The resource registry: the known resource names, the alternate-ID matchers
    of each resource, and the context mappers keyed by (resource, context
    resource). The source keeps this as one process-wide mutable object; here
    each mutator is a pure transformer from one registry state to the next. */
module Settings {
  import opened Wrappers

  /** An alternate-ID matcher, seen through its `test` method: does this
      identifier count as a valid ID? */
  type Matcher = string -> bool

  /** What a context mapper produces from a context ID: the path segment to use
      in place of the context resource name, and the ID to use (if any). */
  datatype MappedContext = MappedContext(mappedContext: string, mappedId: Option<string>)

  /** A context mapper, called with the (possibly absent) context ID. */
  type ContextMapper = Option<string> -> MappedContext

  /** The argument of `addAltIDMatcher`: one matcher, or an array of them. */
  datatype MatcherArg = One(matcher: Matcher) | Many(matchers: seq<Matcher>)

  /** The registry's state. `resources` holds the names whose entry in the
      source's resource map is not `undefined`. */
  datatype Registry = Registry(
    altIdMatchers: map<string, seq<Matcher>>,
    resources: set<string>,
    contextMappers: map<string, map<string, ContextMapper>>)

  /** The registry at process start: everything empty. */
  function EmptyRegistry(): Registry {
    Registry(map[], {}, map[])
  }

  /** The matchers that `arg` contributes, in order. */
  function MatchersOf(arg: MatcherArg): seq<Matcher> {
    match arg
    case One(m) => [m]
    case Many(ms) => ms
  }

  // Alternate-ID matchers

  /** The matchers registered for `name`; the empty sequence, never an absent
      value, when none are. */
  function GetAltIdMatchersForResource(reg: Registry, name: string): (ms: seq<Matcher>)
    ensures name !in reg.altIdMatchers ==> ms == []
    ensures name in reg.altIdMatchers ==> ms == reg.altIdMatchers[name]
  {
    if name in reg.altIdMatchers then reg.altIdMatchers[name] else []
  }

  /** The whole matcher map, as a copy: every resource's matchers read
      through it are the ones the registry holds. */
  function GetAltIdMatchers(reg: Registry): (m: map<string, seq<Matcher>>)
    ensures forall n :: GetAltIdMatchersForResource(reg, n) == (if n in m then m[n] else [])
  {
    reg.altIdMatchers
  }

  /** Appends one matcher, or concatenates an array of matchers, to the list
      of `name`, creating the list when it is absent. */
  function AddAltIdMatcher(reg: Registry, name: string, arg: MatcherArg): (reg': Registry)
    ensures GetAltIdMatchersForResource(reg', name)
            == GetAltIdMatchersForResource(reg, name) + MatchersOf(arg)
    ensures forall n :: n != name ==>
              GetAltIdMatchersForResource(reg', n) == GetAltIdMatchersForResource(reg, n)
    ensures reg'.altIdMatchers.Keys == reg.altIdMatchers.Keys + {name}
    ensures reg'.resources == reg.resources && reg'.contextMappers == reg.contextMappers
  {
    var existing := if name in reg.altIdMatchers then reg.altIdMatchers[name] else [];
    var updated := match arg
      case Many(ms) => existing + ms
      case One(m) => existing + [m];
    reg.(altIdMatchers := reg.altIdMatchers[name := updated])
  }

  /** Replaces the whole matcher map. */
  function SetAltIdMatchers(reg: Registry, refresh: map<string, seq<Matcher>>): (reg': Registry)
    ensures forall n :: GetAltIdMatchersForResource(reg', n)
                        == (if n in refresh then refresh[n] else [])
    ensures reg'.resources == reg.resources && reg'.contextMappers == reg.contextMappers
  {
    reg.(altIdMatchers := refresh)
  }

  // Resources

  /** `isResourceDefined`: the name has an entry in the resource map. */
  predicate IsResourceDefined(reg: Registry, name: string) {
    name in reg.resources
  }

  /** The registry after `addResource` of each name in turn. */
  function AddResources(reg: Registry, names: seq<string>): Registry
    decreases |names|
  {
    if |names| == 0 then reg else AddResources(AddResource(reg, names[0]), names[1..])
  }

  /** After a run of `addResource` calls, a name is defined exactly when it
      was defined before or is one of the names added. */
  lemma {:induction false} ResourcesDefinedByAdds(reg: Registry, names: seq<string>, n: string)
    ensures IsResourceDefined(AddResources(reg, names), n) <==> IsResourceDefined(reg, n) || n in names
    decreases |names|
  {
    if |names| > 0 {
      ResourcesDefinedByAdds(AddResource(reg, names[0]), names[1..], n);
      assert names == [names[0]] + names[1..];
    }
  }

  /** Registers `name`. Registering a known name changes nothing, and no other
      name's membership changes. */
  function AddResource(reg: Registry, name: string): (reg': Registry)
    ensures IsResourceDefined(reg', name)
    ensures forall n :: n != name ==> (IsResourceDefined(reg', n) <==> IsResourceDefined(reg, n))
    ensures IsResourceDefined(reg, name) ==> reg' == reg
    ensures reg'.altIdMatchers == reg.altIdMatchers && reg'.contextMappers == reg.contextMappers
  {
    reg.(resources := reg.resources + {name})
  }

  /** Replaces the whole set of known resources. */
  function SetResources(reg: Registry, refresh: set<string>): (reg': Registry)
    ensures forall n :: IsResourceDefined(reg', n) <==> n in refresh
    ensures reg'.altIdMatchers == reg.altIdMatchers && reg'.contextMappers == reg.contextMappers
  {
    reg.(resources := refresh)
  }

  // Context mappers

  /** Registers `mapper` for the pair (`name`, `ctxName`), overwriting an
      earlier mapper for that pair; every other pair keeps its mapper. */
  function AddContextMapper(reg: Registry, name: string, ctxName: string, mapper: ContextMapper): (reg': Registry)
    ensures GetContextMapperForResource(reg', name, ctxName) == Some(mapper)
    ensures forall n, c :: (n, c) != (name, ctxName) ==>
              GetContextMapperForResource(reg', n, c) == GetContextMapperForResource(reg, n, c)
    ensures reg'.altIdMatchers == reg.altIdMatchers && reg'.resources == reg.resources
  {
    var inner := if name in reg.contextMappers then reg.contextMappers[name] else map[];
    reg.(contextMappers := reg.contextMappers[name := inner[ctxName := mapper]])
  }

  /** Replaces the whole two-level mapper map. */
  function SetResourceMappers(reg: Registry, refresh: map<string, map<string, ContextMapper>>): (reg': Registry)
    ensures forall n, c :: GetContextMapperForResource(reg', n, c).Some? <==> n in refresh && c in refresh[n]
    ensures forall n, c :: n in refresh && c in refresh[n] ==>
              GetContextMapperForResource(reg', n, c) == Some(refresh[n][c])
    ensures reg'.altIdMatchers == reg.altIdMatchers && reg'.resources == reg.resources
  {
    reg.(contextMappers := refresh)
  }

  /** The mapper registered for (`name`, `ctxName`), if any: the lookup the
      source evidently intends (see `GetContextMapperAsWritten`). */
  function GetContextMapperForResource(reg: Registry, name: string, ctxName: string): (r: Option<ContextMapper>)
    ensures r.Some? <==> name in reg.contextMappers && ctxName in reg.contextMappers[name]
    ensures r.Some? ==> r.value == reg.contextMappers[name][ctxName]
    ensures reg == EmptyRegistry() ==> r.None?
  {
    if name in reg.contextMappers && ctxName in reg.contextMappers[name]
    then Some(reg.contextMappers[name][ctxName])
    else None
  }

  /** The TypeError raised when a property of `undefined` is read; `field`
      names the registry field that was read instead of an existing one. */
  datatype LookupError = UndefinedField(field: string)

  /** The lookup as the source writes it: it reads the registry field
      `contextMapper`, which does not exist (the field is `contextMappers`), and
      then indexes the resulting `undefined`, so every call throws. */
  function GetContextMapperAsWritten(reg: Registry, name: string, ctxName: string): (r: Result<Option<ContextMapper>, LookupError>)
    ensures r.Failure?
  {
    Failure(UndefinedField("contextMapper"))
  }

  /** Registering a mapper does not make the as-written lookup find it, while
      the corrected lookup does. */
  lemma ContextMapperLookupDiscrepancy(reg: Registry, name: string, ctxName: string, mapper: ContextMapper)
    ensures var reg' := AddContextMapper(reg, name, ctxName, mapper);
            && GetContextMapperAsWritten(reg', name, ctxName).Failure?
            && GetContextMapperForResource(reg', name, ctxName) == Some(mapper)
  {
  }
}

=== FILE: strings.dfy ===
/** Strings as the path grammar uses them: JavaScript's `String.prototype.split`
    with a one-character separator, its inverse `join`, and `endsWith`. */
module Strings {

  /** No element of `parts` contains the character `c`. */
  predicate AllFree(parts: seq<string>, c: char) {
    forall i :: 0 <= i < |parts| ==> c !in parts[i]
  }

  /** `parts` glued together with `sep` between neighbours, as
      `Array.prototype.join(sep)` does. */
  function Join(parts: seq<string>, sep: char): string
    requires |parts| >= 1
    decreases |parts|
  {
    if |parts| == 1 then parts[0] else parts[0] + [sep] + Join(parts[1..], sep)
  }

  /** `s.split(sep)` for a one-character separator: the maximal runs of `s`
      between occurrences of `sep`. Like JavaScript, the empty string splits
      into one empty part, and a leading or trailing separator yields an empty
      first or last part. */
  function Split(s: string, sep: char): (parts: seq<string>)
    ensures |parts| >= 1
    ensures AllFree(parts, sep)
    ensures Join(parts, sep) == s
    decreases |s|
  {
    if |s| == 0 then [""]
    else
      var rest := Split(s[1..], sep);
      if s[0] == sep then
        var parts := [""] + rest;
        assert parts[1..] == rest;
        parts
      else
        var parts := [[s[0]] + rest[0]] + rest[1..];
        JoinPrepend(s[0], rest, sep);
        assert s == [s[0]] + s[1..];
        parts
  }

  /** Prefixing a character to the first part prefixes it to the joined
      string. */
  lemma JoinPrepend(c: char, rest: seq<string>, sep: char)
    requires |rest| >= 1
    ensures Join([[c] + rest[0]] + rest[1..], sep) == [c] + Join(rest, sep)
  {
    var parts := [[c] + rest[0]] + rest[1..];
    if |rest| > 1 {
      assert parts[1..] == rest[1..];
    }
  }

  /** `s` ends with `suffix`, as `String.prototype.endsWith` decides. */
  predicate EndsWith(s: string, suffix: string) {
    |suffix| <= |s| && s[|s| - |suffix|..] == suffix
  }

  /** Appending one more part adds a separator and that part at the end. */
  lemma {:induction false} JoinSnoc(parts: seq<string>, last: string, sep: char)
    requires |parts| >= 1
    ensures Join(parts + [last], sep) == Join(parts, sep) + [sep] + last
    decreases |parts|
  {
    var whole := parts + [last];
    if |parts| == 1 {
      assert whole[1..] == [last];
    } else {
      assert whole[1..] == parts[1..] + [last];
      JoinSnoc(parts[1..], last, sep);
    }
  }

  /** A character that is neither the separator nor in any part is not in the
      joined string. */
  lemma {:induction false} JoinFree(parts: seq<string>, sep: char, c: char)
    requires |parts| >= 1
    requires c != sep && AllFree(parts, c)
    ensures c !in Join(parts, sep)
    decreases |parts|
  {
    if |parts| > 1 {
      JoinFree(parts[1..], sep, c);
    }
  }

  /** Conversely, a character absent from the joined string is absent from
      every part. */
  lemma {:induction false} FreeOfJoin(parts: seq<string>, sep: char, c: char)
    requires |parts| >= 1
    requires c !in Join(parts, sep)
    ensures AllFree(parts, c)
    decreases |parts|
  {
    if |parts| > 1 {
      var j := Join(parts, sep);
      assert forall k :: 0 <= k < |parts[0]| ==> parts[0][k] == j[k];
      var tail := Join(parts[1..], sep);
      assert forall k :: 0 <= k < |tail| ==> tail[k] == j[|parts[0]| + 1 + k];
      FreeOfJoin(parts[1..], sep, c);
      forall i | 0 <= i < |parts|
        ensures c !in parts[i]
      {
        if i > 0 {
          assert parts[i] == parts[1..][i - 1];
        }
      }
    }
  }

  /** A string without the separator splits into itself alone. */
  lemma {:induction false} SplitNoSep(s: string, sep: char)
    requires sep !in s
    ensures Split(s, sep) == [s]
    decreases |s|
  {
    if |s| > 0 {
      SplitNoSep(s[1..], sep);
      assert [s[0]] + s[1..] == s;
    }
  }

  /** A separator-free prefix followed by the separator splits off as the
      first part. */
  lemma {:induction false} SplitPrefix(a: string, b: string, sep: char)
    requires sep !in a
    ensures Split(a + [sep] + b, sep) == [a] + Split(b, sep)
    decreases |a|
  {
    var s := a + [sep] + b;
    if |a| == 0 {
      assert s[1..] == b;
    } else {
      assert s[1..] == a[1..] + [sep] + b;
      SplitPrefix(a[1..], b, sep);
      assert [a[0]] + a[1..] == a;
    }
  }

  /** Splitting undoes joining parts that do not contain the separator. */
  lemma {:induction false} SplitJoin(parts: seq<string>, sep: char)
    requires |parts| >= 1
    requires AllFree(parts, sep)
    ensures Split(Join(parts, sep), sep) == parts
    decreases |parts|
  {
    if |parts| == 1 {
      SplitNoSep(parts[0], sep);
    } else {
      SplitPrefix(parts[0], Join(parts[1..], sep), sep);
      SplitJoin(parts[1..], sep);
      assert [parts[0]] + parts[1..] == parts;
    }
  }

  /** The first part is empty exactly when `s` is empty or starts with the
      separator. */
  lemma SplitFirstEmpty(s: string, sep: char)
    ensures Split(s, sep)[0] == "" <==> |s| == 0 || s[0] == sep
  {
  }

  /** There is more than one part exactly when the separator occurs in `s`. */
  lemma SplitSeveral(s: string, sep: char)
    ensures |Split(s, sep)| >= 2 <==> sep in s
  {
    if sep !in s {
      SplitNoSep(s, sep);
    }
  }

  /** The last part is empty exactly when `s` is empty or ends with the
      separator. */
  lemma SplitLastEmpty(s: string, sep: char)
    ensures var parts := Split(s, sep);
            parts[|parts| - 1] == "" <==> |s| == 0 || s[|s| - 1] == sep
  {
    var parts := Split(s, sep);
    var last := parts[|parts| - 1];
    if |parts| == 1 {
      assert Join(parts, sep) == parts[0];
    } else {
      var init := parts[..|parts| - 1];
      assert init + [last] == parts;
      JoinSnoc(init, last, sep);
      assert s == Join(init, sep) + [sep] + last;
      if last != "" {
        assert s[|s| - 1] == last[|last| - 1];
      }
    }
  }

  /** The first part is the text of `s` up to (not including) the first
      separator, or all of `s` when there is none. */
  lemma SplitFirstIsPrefix(s: string, sep: char)
    ensures var first := Split(s, sep)[0];
            && first == s[..|first|]
            && sep !in first
            && (|first| == |s| || s[|first|] == sep)
  {
    var parts := Split(s, sep);
    if |parts| > 1 {
      assert s == parts[0] + [sep] + Join(parts[1..], sep);
    }
  }
}

=== FILE: wrappers.dfy ===
/** Failure-compatible wrappers: the model's stand-ins for JavaScript's
    `undefined` (Option) and for thrown errors (Result). */
module Wrappers {

  /** An optional value: `None` plays the part of JavaScript's `undefined`. */
  datatype Option<+T> = None | Some(value: T)

  /** The outcome of an operation that may throw: either its value or the
      error it raises. Usable with `:-`. */
  datatype Result<+R, +E> = Success(value: R) | Failure(error: E) {

    predicate IsFailure() {
      Failure?
    }

    function PropagateFailure<U>(): Result<U, E>
      requires Failure?
    {
      Failure(error)
    }

    function Extract(): R
      requires Success?
    {
      value
    }
  }
}
